=== FILE: README.md ===
# Admin user audit — a Dafny model

`scripts/admin-user-audit.py` cross-references the users of the Clerk
identity service with the users found in the application's D1 database. It
loads `.env.production.local` into the process environment, pages through
Clerk's user list, queries the database for every `clerk_user_id` with its
row counts in four tables, and prints one table row per user id. Each row is
flagged `ok` (the id is in both sources), `NO DB DATA` (Clerk account with
no data: an unused account) or `** ORPHANED DB DATA **` (data whose id has
no Clerk account). A summary follows the table.

This project models the three pieces of pure logic in the script as Dafny
functions and proves what they guarantee:

- **Env-file parsing** (`EnvFile`, on top of `Text`). Each line is
  whitespace-stripped. Blank and `#` lines are skipped. Any other line is
  split at its first `=`: the key is the stripped part before it; the value
  is the stripped part after it, with every leading and trailing `'`/`"`
  removed. The assignments are applied in file order to the environment, a
  `map<string, string>`. Python's `str.strip`, `str.isspace` and
  `str.partition` are written out in `Text`.
- **Clerk paging and normalisation** (`ClerkClient`). The pages the API
  serves are an input sequence of batches; every page past the last batch
  is empty. The loop stops at the first page with fewer than 100 records.
  Each record becomes `{id, email}`, where the email is the first address or
  `""`. The loop appears twice: as the recursive function `FetchPages`, and
  as the `while True` method `FetchClerkUsers`, which is proved equal to it.
- **Reconciliation and report** (`Audit`, on top of `StringOrder`). Clerk
  users are indexed by id, with the last record winning. The report has one
  row per id of the sorted union, the status and counts of each row, the
  `orphaned_db` and `unused_clerk` lists, and the summary lines, all as
  data. `StringOrder` defines Python's ordering on `str` (code point by code
  point, a prefix first) and `sorted(set(...))`.
- **The run** (`AuditRun`). This is `main` from start to report: a missing
  env file, an environment assignment that is refused, and an empty
  `CLERK_SECRET_KEY` each end the run with an error.

The comment at line 41 of the script says "Strip surrounding quotes", but
the code, `strip("'\"")`, removes every quote character at either end,
matched or not: `"abc'` gives `abc`. The model follows the code.

On POSIX, Python's `os.environ[key] = value` raises an exception when the name is
empty (a line such as `=x`), when the name contains `=`, or when the name or
value contains a NUL character. The script does not catch it, so the run
ends there. `EnvFile.Accepted` models this rule of the Python runtime, and
the model reports the failing line.

## Model

| member | source | states |
|---|---|---|
| `Text.IsSpace` | scripts/admin-user-audit.py:37-43 | no contract of its own: the code points CPython's `str.isspace` accepts (`Py_UNICODE_ISSPACE`: 9-13, 28-32, 133, 160, 5760, 8192-8202, 8232, 8233, 8239, 8287, 12288), the set `strip()` removes at lines 37, 42 and 43; see `Text.Strip` and `Text.StripUnique` |
| `Text.Strip` | scripts/admin-user-audit.py:37 | the result is a slice of the input with only removable characters cut off at each end, and neither end of the result is removable |
| `Text.StripUnique` | scripts/admin-user-audit.py:37 | that characterisation is exact: any string meeting it is the strip result |
| `Text.StripIdempotent` | scripts/admin-user-audit.py:43 | stripping an already stripped string changes nothing (why a line without `=` keeps its whole stripped text as key) |
| `Text.StripEmptyIff` | scripts/admin-user-audit.py:38 | a line strips to empty exactly when every character is whitespace |
| `Text.Partition` | scripts/admin-user-audit.py:40 | `partition` reports whether the separator occurs; if it does, the input is head + separator + tail with no separator in the head; if not, the head is the whole input and the tail is empty |
| `Text.PartitionAtFirst` | scripts/admin-user-audit.py:40 | the split happens at the first occurrence of the separator |
| `EnvFile.ParseLine` | scripts/admin-user-audit.py:37-39 | a line is skipped exactly when it is empty or starts with `#` after stripping |
| `EnvFile.ParseLineKeyValue` | scripts/admin-user-audit.py:40-43 | key = stripped text before the first `=` (so it holds no `=`); value = text after it, stripped, then with every leading and trailing quote removed; no `=` means key = the whole stripped line and value `""` |
| `EnvFile.ApplyEffect` | scripts/admin-user-audit.py:38-43 | a skipped line leaves the environment unchanged; an assignment sets exactly its key to its value and leaves every other variable alone; it fails exactly when the runtime refuses the name or value |
| `EnvFile.ApplyAll` | scripts/admin-user-audit.py:36-43 | loading fails exactly when some line's assignment is refused, and it reports the first such line with its key |
| `EnvFile.LoadEnv` | scripts/admin-user-audit.py:36-43 | on the raw lines of the file: loading fails exactly when some line's assignment is refused, and it reports the first such line with its key |
| `EnvFile.ApplyAllSkips` | scripts/admin-user-audit.py:38-39 | a file of only blank and comment lines gives back the starting environment |
| `EnvFile.ApplyAllKeepsUnset` | scripts/admin-user-audit.py:36-43 | a variable that no line sets keeps its starting value and stays absent if it was absent |
| `EnvFile.ApplyAllLastWins` | scripts/admin-user-audit.py:36-43 | a variable ends with the value of the last line that sets it |
| `EnvFile.Accepted` | scripts/admin-user-audit.py:43 | no contract of its own: the rule of Python's `os.environ` assignment (a non-empty name without `=`, no NUL in name or value); `EnvFile.ApplyEffect`, `EnvFile.LoadEnv` and `AuditRun.Run` state what a refused line does |
| `EnvFile.LoadEnvKeepsUnset` | scripts/admin-user-audit.py:36-43 | a variable no line sets keeps its starting value after a successful load, and stays absent if it was absent |
| `EnvFile.LoadEnvLastWins` | scripts/admin-user-audit.py:36-43 | on the raw lines: a later line for the same key overwrites an earlier one, so a key ends with the value of its last non-comment line |
| `EnvFile.QuotedValueExample` | scripts/admin-user-audit.py:42 | the value `" a b "` becomes ` a b `: the quotes go and the spaces inside them stay |
| `EnvFile.UnmatchedQuotesExample` | scripts/admin-user-audit.py:42 | the value `"abc'` becomes `abc`: the quote characters need not match |
| `StringOrder.Less` | scripts/admin-user-audit.py:159 | no contract of its own: Python's `<` on `str`, which `sorted` uses; see `StringOrder.LessIffFirstDifference`, `StringOrder.LessIrreflexive`, `StringOrder.LessTransitive` and `StringOrder.LessTotal` |
| `StringOrder.LessIffFirstDifference` | scripts/admin-user-audit.py:159 | the string order is lexicographic: `a < b` exactly when at the first differing position `a` has the smaller code point, or `a` is a proper prefix of `b` |
| `StringOrder.LessIrreflexive` | scripts/admin-user-audit.py:159 | no string is smaller than itself |
| `StringOrder.LessTransitive` | scripts/admin-user-audit.py:159 | the order is transitive |
| `StringOrder.LessTotal` | scripts/admin-user-audit.py:159 | any two distinct strings are ordered one way or the other |
| `StringOrder.SortedSet` | scripts/admin-user-audit.py:159 | `sorted(set(xs))` is strictly ascending and holds exactly the elements of `xs` |
| `StringOrder.SortedUnique` | scripts/admin-user-audit.py:159 | a set of strings has only one strictly ascending listing |
| `StringOrder.SortedSetDeterministic` | scripts/admin-user-audit.py:159 | inputs with the same elements, in any order and with any repeats, sort to the same list |
| `ClerkClient.PrimaryEmail` | scripts/admin-user-audit.py:87-89 | no contract of its own: the first entry's `email_address`, or `""` when the list is empty or the field absent; `ClerkClient.NormaliseFields` states it for every record |
| `ClerkClient.Normalise` | scripts/admin-user-audit.py:86-96 | one normalised record per API user of the page |
| `ClerkClient.NormaliseFields` | scripts/admin-user-audit.py:86-96 | record `i` keeps the id of API user `i`; its email is taken from the first `email_addresses` entry (`""` if that entry has no `email_address`), or is `""` when the list is empty |
| `ClerkClient.NormaliseAppend` | scripts/admin-user-audit.py:86-96 | records are appended one by one, so normalising two pages one after the other gives the same users as normalising them together |
| `ClerkClient.FetchPages` | scripts/admin-user-audit.py:71-100 | between 1 and (number of batches + 1) requests; every page before the last request is full (>= 100 records); the last page requested is empty or short; the users are the normalised records of all pages requested, in order |
| `ClerkClient.FetchPagesUnique` | scripts/admin-user-audit.py:71-100 | the stopping rule and the collected users determine the loop's result |
| `ClerkClient.FetchPagesCount` | scripts/admin-user-audit.py:86-100 | the number of users equals the sum of the sizes of the pages requested |
| `ClerkClient.ThreePagesExample` | scripts/admin-user-audit.py:71-100 | pages of 100, 100 and 37 records: 3 requests and 237 users |
| `ClerkClient.FullThenEmptyExample` | scripts/admin-user-audit.py:83-84 | a full page followed by an empty one: 2 requests and 100 users |
| `ClerkClient.FetchClerkUsers` | scripts/admin-user-audit.py:67-100 | the `while True` loop with its two `break`s makes the same requests and collects the same users as `FetchPages` |
| `Audit.DbIds` | scripts/admin-user-audit.py:157 | no contract of its own: `db_ids`, the set of `clerk_user_id` values of the database rows; see `Audit.AllIds`, `Audit.ReportCoversUnion` and `Audit.ReportStatuses` |
| `Audit.IndexById` | scripts/admin-user-audit.py:153 | the index's keys are exactly the Clerk ids, and each id maps to a record that carries it |
| `Audit.IndexByIdLastWins` | scripts/admin-user-audit.py:153 | an id maps to the last record that carries it |
| `Audit.FirstRowFor` | scripts/admin-user-audit.py:171 | the position of the first database row for the id; it is in range exactly when the id occurs among the database ids |
| `Audit.StatusLabel` | scripts/admin-user-audit.py:179-185 | no contract of its own: the STATUS texts `ok`, `NO DB DATA` and `** ORPHANED DB DATA **`; see `Audit.StatusLabelsDistinct` |
| `Audit.RowFor` | scripts/admin-user-audit.py:170-186 | status `ok` iff the id is in the index and among the database ids; `NO DB DATA` iff only in the index; orphaned iff not in the index; email blank without a Clerk record; counts 0 without a database row, else those of the first row |
| `Audit.AllIds` | scripts/admin-user-audit.py:157-159 | the ids are strictly ascending and are exactly the union of the Clerk ids and the database ids |
| `Audit.IdsWithStatus` | scripts/admin-user-audit.py:179-186 | an id is in the appended list exactly when some row carries it with that status |
| `Audit.IdsWithStatusSorted` | scripts/admin-user-audit.py:166-186 | appending in table order keeps the order: when the row ids ascend, so does the list |
| `Audit.OrphanedEntries` | scripts/admin-user-audit.py:197-199 | each orphaned id is listed with the trip and item counts of its first database row |
| `Audit.BuildReport` | scripts/admin-user-audit.py:153-206 | no contract of its own; see `Audit.ReportCoversUnion`, `Audit.ReportStatuses`, `Audit.ReportRowContents`, `Audit.ReportLists`, `Audit.ReportSummary` and `Audit.ReportSummaryEntries` |
| `Audit.ReportCoversUnion` | scripts/admin-user-audit.py:159-169 | the table has one row per id of either source, with no omission and no repeat, in strictly ascending order |
| `Audit.RowsClassified` | scripts/admin-user-audit.py:159-186 | the rows built for the sorted union carry the union's ids in order, each id is a Clerk or a database id, and each row has the status its id earns from the sides it occurs on |
| `Audit.ReportStatuses` | scripts/admin-user-audit.py:179-186 | every row of the report is classified: `ok` iff the id is in both sources, `NO DB DATA` iff Clerk-only, orphaned iff database-only |
| `Audit.ReportRowContents` | scripts/admin-user-audit.py:173-177 | blank email without a Clerk record, otherwise the email of the last Clerk record with the id; all four counts 0 without a database row, otherwise those of the first database row with the id |
| `Audit.IdsWithStatusOfReport` | scripts/admin-user-audit.py:179-186 | the ids collected for a status are exactly the set that status stands for (intersection, Clerk minus database, database minus Clerk) |
| `Audit.ReportLists` | scripts/admin-user-audit.py:166-186 | `orphaned_db` and `unused_clerk` are ascending and hold exactly the database-only and Clerk-only ids; they are disjoint; with the `ok` ids they partition the ids of the table |
| `Audit.Summary` | scripts/admin-user-audit.py:192-206 | no contract of its own; see `Audit.SummaryNotices` and `Audit.SummaryEntriesListed` |
| `Audit.SummaryNotices` | scripts/admin-user-audit.py:192-206 | any summary starts with the two totals; the "no orphaned data" notice appears iff there are no orphans, and the orphan header follows the totals otherwise; the unused header appears iff there are unused accounts, and with none there is no unused line at all |
| `Audit.SummaryEntriesListed` | scripts/admin-user-audit.py:192-206 | the summary line by line: its length is 2 + the orphan section (header and one line per orphan, or the single notice) + the unused section (header and one line per unused id, or nothing); orphan `i` is on line `3 + i` with the trip and item counts of its first database row; the unused header follows the orphan section and unused id `i` comes `i + 1` lines after it with the email its index entry holds |
| `Audit.ReportSummary` | scripts/admin-user-audit.py:192-206 | for the report: the totals are the raw numbers of Clerk records and database rows; the notice appears iff `orphaned_db` is empty, on the line after the totals, and the orphan header takes that line otherwise; an empty `unused_clerk` leaves no trace |
| `Audit.ReportSummaryEntries` | scripts/admin-user-audit.py:192-206 | for the report, line by line: the exact length; orphan `i` of `orphaned_db` on line `3 + i` with the counts of its first database row; the unused header right after the orphan section, then unused id `i` with the email of the last Clerk record carrying it; nothing after that |
| `Audit.ReportOrderDeterministic` | scripts/admin-user-audit.py:159 | the sequence of row ids depends only on which ids occur, not on input order or repeats |
| `Audit.StatusLabelsDistinct` | scripts/admin-user-audit.py:179-186 | the three STATUS texts are pairwise different, so the column tells the statuses apart |
| `Audit.TwoUserExample` | scripts/admin-user-audit.py:169-186 | Clerk user `u1` and database user `u2` (3 trips) give rows `u1` NO DB DATA and `u2` orphaned with 3 trips; `orphaned_db` = [u2] and `unused_clerk` = [u1] |
| `Audit.TwoUserSummaryExample` | scripts/admin-user-audit.py:192-206 | the same two users give exactly this summary: both totals of 1, the orphan header with count 1, `u2` with 3 trips and 0 items, the unused header with count 1, `u1` with `a@x.com` |
| `Audit.SummaryOfOneEach` | scripts/admin-user-audit.py:192-206 | with one Clerk record, one database row, one orphan and one unused id, the summary is exactly six lines: both totals of 1, the orphan header, the orphan with the row's counts, the unused header, the unused id with the record's email |
| `AuditRun.Run` | scripts/admin-user-audit.py:32-65 | the run fails with `EnvFileMissing` exactly when the env file is missing; a file with a refused line fails with a refused-assignment error; a refused-assignment error names the first line of the file whose assignment is refused, and its key; the run gets past the file exactly when the file exists and no line's assignment is refused; a run that goes ahead has a non-empty `CLERK_SECRET_KEY` in its environment |
| `AuditRun.SecretKey` | scripts/admin-user-audit.py:62 | no contract of its own: `os.environ.get("CLERK_SECRET_KEY", "")`; `AuditRun.RunSecretKeyFromFile` and `AuditRun.RunSecretKeyFromEnv` state what it decides |
| `AuditRun.RunSecretKeyFromFile` | scripts/admin-user-audit.py:62-65 | when the last line setting `CLERK_SECRET_KEY` is line `i` and the file loads, the run goes ahead exactly when that line's value is non-empty |
| `AuditRun.RunSecretKeyFromEnv` | scripts/admin-user-audit.py:62-65 | when no line sets `CLERK_SECRET_KEY` and the file loads, the run goes ahead exactly when the starting environment holds a non-empty key |
| `AuditRun.RunReportCoversUnion` | scripts/admin-user-audit.py:148-159 | a run that goes ahead reports the ids of the fetched users and of the database rows, each once, ascending |

## Left out

- HTTP requests, the `Authorization`/`User-Agent` headers, JSON decoding, and the bare-list-or-`data` response shape (lines 72-82) are not modelled: each page's records are an input batch.
- The millisecond-epoch to UTC `created_at` string (lines 90-95) is not modelled: it uses float division and `datetime`, and the report never reads it.
- `query_d1`, `fetch_db_users`, the SQL text, the `wrangler` exit-code handling and the shape defaulting (lines 107-143) are not modelled; neither is `find_wrangler` (lines 46-53), a filesystem lookup. `DB_NAME` (line 27) is not modelled either: it is read from the process environment when the module loads, before `load_env` runs (line 149), so a `DB_NAME` set in the env file has no effect. The database rows are an input sequence. The query's one-row-per-id grouping is not assumed: repeated ids are allowed, the counts come from the first row with the id, and the database total counts every row.
- Reading the env file from disk and `splitlines` (line 36) are not modelled: the file is given as its sequence of lines, and `None` stands for a missing file.
- The fixed-width `print` formatting and table header (lines 162-164, 188), the progress messages and `sys.exit` are not modelled. Rows and summary lines are data; `Audit.StatusLabel` keeps the three status texts.
- A Clerk record without an `id` (a `KeyError` at line 93) is not modelled: every API record has an id.
- A missing or `null` `email_addresses` is modelled as the empty list. A `null` `email_address` is not modelled separately.
- `os.environ` is modelled as on POSIX: names are case-sensitive, so `Foo` and `FOO` are different variables. On Windows, Python upper-cases every name, so there `clerk_secret_key=...` would satisfy the lookup at line 62 and `Foo=1` and `FOO=2` would overwrite each other; that case folding is not modelled.
- Python strings may hold lone surrogate code points; Dafny `char` values are Unicode scalar values, so such strings are not modelled.

=== FILE: audit.dfy ===
/** The report of `main`: Clerk users and database users are merged by user
    id, every id gets one row in ascending order with a status, and the
    summary lists the orphaned database users and the unused Clerk accounts. */
module Audit {
  import opened Common
  import opened StringOrder
  import opened ClerkClient

  /** One row of the database query: a user id and its row counts in the
      four tables. */
  datatype DbUser = DbUser(
    clerkUserId: string,
    tripCount: nat,
    masterItemCount: nat,
    categoryCount: nat,
    bagTemplateCount: nat)

  /** The three outcomes of matching an id against both sources. */
  datatype Status = Ok | NoDbData | OrphanedDbData

  /** The text printed in the STATUS column. */
  function StatusLabel(status: Status): string {
    match status
    case Ok => "ok"
    case NoDbData => "NO DB DATA"
    case OrphanedDbData => "** ORPHANED DB DATA **"
  }

  /** The STATUS column tells the three outcomes apart: distinct statuses
      print distinct labels. */
  lemma StatusLabelsDistinct(a: Status, b: Status)
    ensures StatusLabel(a) == StatusLabel(b) <==> a == b
  {
    assert StatusLabel(Ok)[0] == 'o';
    assert StatusLabel(NoDbData)[0] == 'N';
    assert StatusLabel(OrphanedDbData)[0] == '*';
  }

  /** One line of the table. */
  datatype ReportRow = ReportRow(
    id: string,
    email: string,
    trips: nat,
    items: nat,
    cats: nat,
    templates: nat,
    status: Status)

  /** The lines printed after the table, in order. */
  datatype SummaryLine =
    | ClerkTotal(count: nat)
    | DbTotal(count: nat)
    | OrphanedHeader(count: nat)
    | OrphanedEntry(id: string, trips: nat, items: nat)
    | NoOrphanedNotice
    | UnusedHeader(count: nat)
    | UnusedEntry(id: string, email: string)

  /** Everything `main` prints, as data. */
  datatype Report = Report(
    rows: seq<ReportRow>,
    orphanedDb: seq<string>,
    unusedClerk: seq<string>,
    summary: seq<SummaryLine>)

  /** The ids of the Clerk records: the keys of `clerk_by_id`. */
  function ClerkIds(users: seq<ClerkUser>): set<string> {
    set u | u in users :: u.id
  }

  /** `db_ids`: the Clerk ids the database rows name. */
  function DbIds(db: seq<DbUser>): set<string> {
    set r | r in db :: r.clerkUserId
  }

  lemma ClerkIdsSnoc(users: seq<ClerkUser>, u: ClerkUser)
    ensures ClerkIds(users + [u]) == ClerkIds(users) + {u.id}
  {
    assert forall v :: v in users + [u] <==> v in users || v == u;
  }

  /** No later record has the same id as `users[i]`. */
  predicate LastWithId(users: seq<ClerkUser>, i: int)
    requires 0 <= i < |users|
  {
    forall j :: i < j < |users| ==> users[j].id != users[i].id
  }

  /** `{u["id"]: u for u in clerk_users}`: the ids of the records are the
      keys, and every id maps to a record that carries it. */
  function IndexById(users: seq<ClerkUser>): (m: map<string, ClerkUser>)
    ensures m.Keys == ClerkIds(users)
    ensures forall id :: id in m ==> m[id].id == id
  {
    if users == [] then map[]
    else
      var n := |users| - 1;
      assert users == users[..n] + [users[n]];
      ClerkIdsSnoc(users[..n], users[n]);
      IndexById(users[..n])[users[n].id := users[n]]
  }

  /** Later records overwrite earlier ones: an id maps to the last record
      that carries it. */
  lemma {:induction false} IndexByIdLastWins(users: seq<ClerkUser>, i: nat)
    requires i < |users| && LastWithId(users, i)
    ensures IndexById(users)[users[i].id] == users[i]
  {
    var n := |users| - 1;
    if i < n {
      var prefix := users[..n];
      assert prefix[i] == users[i];
      assert LastWithId(prefix, i) by {
        assert forall j :: i < j < n ==> prefix[j] == users[j];
      }
      IndexByIdLastWins(prefix, i);
    }
  }

  /** The position of the first database row for `id`, or `|db|` when there
      is none (`next((r for r in db_users if ...), None)`). */
  function FirstRowFor(db: seq<DbUser>, id: string): (k: nat)
    ensures k <= |db|
    ensures forall j :: 0 <= j < k ==> db[j].clerkUserId != id
    ensures k < |db| ==> db[k].clerkUserId == id
    ensures k < |db| <==> id in DbIds(db)
  {
    if db == [] then 0
    else if db[0].clerkUserId == id then 0
    else 1 + FirstRowFor(db[1..], id)
  }

  /** `db[k]` is the first database row for `id`. */
  predicate IsFirstRowFor(db: seq<DbUser>, id: string, k: int) {
    && 0 <= k < |db|
    && db[k].clerkUserId == id
    && forall j :: 0 <= j < k ==> db[j].clerkUserId != id
  }

  /** The table row for `id`: the email from the Clerk side, the four counts
      from the database side, and the status saying which sides exist. */
  function RowFor(id: string, byId: map<string, ClerkUser>, db: seq<DbUser>): (row: ReportRow)
    ensures row.id == id
    ensures row.status == Ok <==> id in byId && id in DbIds(db)
    ensures row.status == NoDbData <==> id in byId && id !in DbIds(db)
    ensures row.status == OrphanedDbData <==> id !in byId
    ensures id !in byId ==> row.email == ""
    ensures id in byId ==> row.email == byId[id].email
    ensures id !in DbIds(db) ==> row.trips == row.items == row.cats == row.templates == 0
    ensures forall k :: IsFirstRowFor(db, id, k) ==>
              && row.trips == db[k].tripCount && row.items == db[k].masterItemCount
              && row.cats == db[k].categoryCount && row.templates == db[k].bagTemplateCount
  {
    var k := FirstRowFor(db, id);
    var email := if id in byId then byId[id].email else "";
    var status :=
      if id in byId && k < |db| then Ok
      else if id in byId then NoDbData
      else OrphanedDbData;
    if k < |db| then
      ReportRow(id, email, db[k].tripCount, db[k].masterItemCount, db[k].categoryCount,
                db[k].bagTemplateCount, status)
    else
      ReportRow(id, email, 0, 0, 0, 0, status)
  }

  /** `all_ids`: the union of the Clerk ids and the database ids, sorted. */
  function AllIds(users: seq<ClerkUser>, db: seq<DbUser>): (ids: seq<string>)
    ensures StrictlySorted(ids)
    ensures Elems(ids) == ClerkIds(users) + DbIds(db)
  {
    var clerkIds := seq(|users|, i requires 0 <= i < |users| => users[i].id);
    var dbIds := seq(|db|, i requires 0 <= i < |db| => db[i].clerkUserId);
    assert Elems(clerkIds + dbIds) == ClerkIds(users) + DbIds(db) by {
      forall x | x in ClerkIds(users) ensures x in Elems(clerkIds + dbIds) {
        var u :| u in users && u.id == x;
        var i :| 0 <= i < |users| && users[i] == u;
        assert (clerkIds + dbIds)[i] == x;
      }
      forall x | x in DbIds(db) ensures x in Elems(clerkIds + dbIds) {
        var r :| r in db && r.clerkUserId == x;
        var i :| 0 <= i < |db| && db[i] == r;
        assert (clerkIds + dbIds)[|users| + i] == x;
      }
    }
    SortedSet(clerkIds + dbIds)
  }

  /** The rows of the table, one per id, in the order of `ids`. */
  function Rows(ids: seq<string>, byId: map<string, ClerkUser>, db: seq<DbUser>): (rows: seq<ReportRow>)
    ensures |rows| == |ids|
    ensures forall i :: 0 <= i < |ids| ==> rows[i] == RowFor(ids[i], byId, db)
  {
    seq(|ids|, i requires 0 <= i < |ids| => RowFor(ids[i], byId, db))
  }

  /** Some row carries `id` with status `status`. */
  predicate HasRow(rows: seq<ReportRow>, id: string, status: Status) {
    exists i :: 0 <= i < |rows| && rows[i].id == id && rows[i].status == status
  }

  /** A row of a non-empty table is its first row or a row of the rest. */
  lemma HasRowCons(rows: seq<ReportRow>, status: Status)
    requires rows != []
    ensures forall id :: HasRow(rows, id, status) <==>
              (rows[0].id == id && rows[0].status == status) || HasRow(rows[1..], id, status)
  {
    forall id | HasRow(rows[1..], id, status) ensures HasRow(rows, id, status) {
      var j :| 0 <= j < |rows| - 1 && rows[1..][j].id == id && rows[1..][j].status == status;
      assert rows[j + 1] == rows[1..][j];
    }
    forall id | HasRow(rows, id, status) && !(rows[0].id == id && rows[0].status == status)
      ensures HasRow(rows[1..], id, status)
    {
      var i :| 0 <= i < |rows| && rows[i].id == id && rows[i].status == status;
      assert rows[1..][i - 1] == rows[i];
    }
  }

  /** The ids of the rows with status `status`, in table order (the lists
      `orphaned_db` and `unused_clerk` built by `append` inside the loop). */
  function IdsWithStatus(rows: seq<ReportRow>, status: Status): (ids: seq<string>)
    ensures forall id :: id in ids <==> HasRow(rows, id, status)
  {
    if rows == [] then []
    else
      var rest := IdsWithStatus(rows[1..], status);
      HasRowCons(rows, status);
      if rows[0].status == status then [rows[0].id] + rest else rest
  }

  /** The row ids ascend strictly. */
  predicate RowsSorted(rows: seq<ReportRow>) {
    forall i, j :: 0 <= i < j < |rows| ==> Less(rows[i].id, rows[j].id)
  }

  /** Appending in table order keeps the table's order: when the rows ascend,
      so does the list of ids with one status. */
  lemma {:induction false} IdsWithStatusSorted(rows: seq<ReportRow>, status: Status)
    requires RowsSorted(rows)
    ensures StrictlySorted(IdsWithStatus(rows, status))
  {
    if rows != [] {
      var rest := IdsWithStatus(rows[1..], status);
      assert RowsSorted(rows[1..]) by {
        forall i, j | 0 <= i < j < |rows| - 1 ensures Less(rows[1..][i].id, rows[1..][j].id) {
          assert rows[1..][i] == rows[i + 1] && rows[1..][j] == rows[j + 1];
        }
      }
      IdsWithStatusSorted(rows[1..], status);
      if rows[0].status == status {
        forall j | 0 <= j < |rest| ensures Less(rows[0].id, rest[j]) {
          assert rest[j] in rest;
          var m :| 0 <= m < |rows| - 1 && rows[1..][m].id == rest[j] && rows[1..][m].status == status;
          assert rows[m + 1] == rows[1..][m];
        }
        var ids := [rows[0].id] + rest;
        forall i, j | 0 <= i < j < |ids| ensures Less(ids[i], ids[j]) {
          assert ids[j] == rest[j - 1];
          if i > 0 {
            assert ids[i] == rest[i - 1];
          }
        }
      }
    }
  }

  /** `(id, trips, items)` for each orphaned id, taken from its first
      database row. */
  function OrphanedEntries(ids: seq<string>, db: seq<DbUser>): (lines: seq<SummaryLine>)
    requires forall i :: 0 <= i < |ids| ==> ids[i] in DbIds(db)
    ensures |lines| == |ids|
    ensures forall i, k :: 0 <= i < |ids| && IsFirstRowFor(db, ids[i], k) ==>
              lines[i] == OrphanedEntry(ids[i], db[k].tripCount, db[k].masterItemCount)
  {
    seq(|ids|, i requires 0 <= i < |ids| =>
      var k := FirstRowFor(db, ids[i]);
      OrphanedEntry(ids[i], db[k].tripCount, db[k].masterItemCount))
  }

  /** `(id, email)` for each unused Clerk account. */
  function UnusedEntries(ids: seq<string>, byId: map<string, ClerkUser>): (lines: seq<SummaryLine>)
    requires forall i :: 0 <= i < |ids| ==> ids[i] in byId
    ensures |lines| == |ids|
    ensures forall i :: 0 <= i < |ids| ==> lines[i] == UnusedEntry(ids[i], byId[ids[i]].email)
  {
    seq(|ids|, i requires 0 <= i < |ids| => UnusedEntry(ids[i], byId[ids[i]].email))
  }

  /** The orphan section of the summary: a header and one entry per
      orphaned id, or the "none found" notice when there is none. */
  function OrphanSection(orphaned: seq<string>, db: seq<DbUser>): (sec: seq<SummaryLine>)
    requires forall i :: 0 <= i < |orphaned| ==> orphaned[i] in DbIds(db)
  {
    if orphaned != [] then [OrphanedHeader(|orphaned|)] + OrphanedEntries(orphaned, db)
    else [NoOrphanedNotice]
  }

  /** The unused section of the summary: a header and one entry per unused
      account, or nothing at all. */
  function UnusedSection(unused: seq<string>, byId: map<string, ClerkUser>): (sec: seq<SummaryLine>)
    requires forall i :: 0 <= i < |unused| ==> unused[i] in byId
  {
    if unused != [] then [UnusedHeader(|unused|)] + UnusedEntries(unused, byId) else []
  }

  /** The summary after the table: both totals, then the orphaned users or
      the "none found" notice, then the unused accounts when there are any
      (there is no notice for the case of none). */
  function Summary(clerkTotal: nat, db: seq<DbUser>, byId: map<string, ClerkUser>,
                   orphaned: seq<string>, unused: seq<string>): seq<SummaryLine>
    requires forall i :: 0 <= i < |orphaned| ==> orphaned[i] in DbIds(db)
    requires forall i :: 0 <= i < |unused| ==> unused[i] in byId
  {
    [ClerkTotal(clerkTotal), DbTotal(|db|)] + OrphanSection(orphaned, db) + UnusedSection(unused, byId)
  }

  /** The ids of the rows, in table order. */
  function RowIds(rows: seq<ReportRow>): (ids: seq<string>)
    ensures |ids| == |rows|
    ensures forall i :: 0 <= i < |rows| ==> ids[i] == rows[i].id
  {
    seq(|rows|, i requires 0 <= i < |rows| => rows[i].id)
  }

  /** The status an id earns from the sides it occurs on. */
  function StatusOf(id: string, clerk: set<string>, dbIds: set<string>): Status {
    if id in clerk && id in dbIds then Ok
    else if id in clerk then NoDbData
    else OrphanedDbData
  }

  /** Every row's id occurs on one of the two sides, and its status is the
      one those sides earn it. */
  predicate Classified(rows: seq<ReportRow>, clerk: set<string>, dbIds: set<string>) {
    forall i :: 0 <= i < |rows| ==>
      rows[i].id in clerk + dbIds && rows[i].status == StatusOf(rows[i].id, clerk, dbIds)
  }

  /** The rows built for the sorted union get their status from the index
      and the database rows, and they carry the ids in union order. */
  lemma RowsClassified(users: seq<ClerkUser>, db: seq<DbUser>, byId: map<string, ClerkUser>,
                       rows: seq<ReportRow>)
    requires byId == IndexById(users)
    requires rows == Rows(AllIds(users, db), byId, db)
    ensures Classified(rows, ClerkIds(users), DbIds(db))
    ensures RowIds(rows) == AllIds(users, db)
  {
    var all := AllIds(users, db);
    forall i | 0 <= i < |rows|
      ensures rows[i].id in ClerkIds(users) + DbIds(db)
    {
      assert all[i] in Elems(all);
    }
  }

  /** Classified rows list an orphaned id only when it is a database id and
      an unused id only when it is a Clerk id. */
  lemma ListedInSources(rows: seq<ReportRow>, clerk: set<string>, dbIds: set<string>,
                        orphaned: seq<string>, unused: seq<string>)
    requires Classified(rows, clerk, dbIds)
    requires orphaned == IdsWithStatus(rows, OrphanedDbData)
    requires unused == IdsWithStatus(rows, NoDbData)
    ensures forall i :: 0 <= i < |orphaned| ==> orphaned[i] in dbIds
    ensures forall i :: 0 <= i < |unused| ==> unused[i] in clerk
  {
    forall i | 0 <= i < |orphaned| ensures orphaned[i] in dbIds {
      assert orphaned[i] in orphaned;
    }
    forall i | 0 <= i < |unused| ensures unused[i] in clerk {
      assert unused[i] in unused;
    }
  }

  /** The body of `main` after both fetches, printing replaced by data. */
  function BuildReport(users: seq<ClerkUser>, db: seq<DbUser>): Report {
    var byId := IndexById(users);
    var rows := Rows(AllIds(users, db), byId, db);
    var orphaned := IdsWithStatus(rows, OrphanedDbData);
    var unused := IdsWithStatus(rows, NoDbData);
    RowsClassified(users, db, byId, rows);
    ListedInSources(rows, ClerkIds(users), DbIds(db), orphaned, unused);
    Report(rows, orphaned, unused, Summary(|users|, db, byId, orphaned, unused))
  }

  /** Union completeness and order: the table has one row per id found in
      either source, in strictly ascending order, so no id appears twice. */
  lemma ReportCoversUnion(users: seq<ClerkUser>, db: seq<DbUser>)
    ensures var ids := RowIds(BuildReport(users, db).rows);
            && StrictlySorted(ids)
            && Elems(ids) == ClerkIds(users) + DbIds(db)
  {
    RowsClassified(users, db, IndexById(users), BuildReport(users, db).rows);
  }

  /** The status of every row is the one its id earns: `ok` when the id is
      both a Clerk id and a database id, `NO DB DATA` when it is only a Clerk
      id, orphaned when it is only a database id. */
  lemma ReportStatuses(users: seq<ClerkUser>, db: seq<DbUser>)
    ensures Classified(BuildReport(users, db).rows, ClerkIds(users), DbIds(db))
  {
    RowsClassified(users, db, IndexById(users), BuildReport(users, db).rows);
  }

  /** A row without a Clerk record has a blank email; otherwise the email is
      that of the last Clerk record with the id. A row without a database row
      has all four counts 0; otherwise the counts are those of the first
      database row with the id. */
  lemma ReportRowContents(users: seq<ClerkUser>, db: seq<DbUser>)
    ensures var rows := BuildReport(users, db).rows;
            && (forall i :: 0 <= i < |rows| && rows[i].id !in ClerkIds(users) ==> rows[i].email == "")
            && (forall i, j :: 0 <= i < |rows| && 0 <= j < |users| && users[j].id == rows[i].id && LastWithId(users, j) ==>
                  rows[i].email == users[j].email)
            && (forall i :: 0 <= i < |rows| && rows[i].id !in DbIds(db) ==>
                  rows[i].trips == rows[i].items == rows[i].cats == rows[i].templates == 0)
            && (forall i, k :: 0 <= i < |rows| && IsFirstRowFor(db, rows[i].id, k) ==>
                  && rows[i].trips == db[k].tripCount && rows[i].items == db[k].masterItemCount
                  && rows[i].cats == db[k].categoryCount && rows[i].templates == db[k].bagTemplateCount)
  {
    forall j | 0 <= j < |users| && LastWithId(users, j) ensures IndexById(users)[users[j].id] == users[j] {
      IndexByIdLastWins(users, j);
    }
  }

  /** The ids a status stands for, given the Clerk ids and the database ids. */
  function IdsOfStatus(clerk: set<string>, dbIds: set<string>, status: Status): set<string> {
    match status
    case Ok => clerk * dbIds
    case NoDbData => clerk - dbIds
    case OrphanedDbData => dbIds - clerk
  }

  /** In classified rows that carry every id of either side, the rows with a
      status carry exactly the ids that status stands for. */
  lemma ClassifiedIds(rows: seq<ReportRow>, clerk: set<string>, dbIds: set<string>, status: Status)
    requires Classified(rows, clerk, dbIds)
    requires Elems(RowIds(rows)) == clerk + dbIds
    ensures forall id :: HasRow(rows, id, status) <==> id in IdsOfStatus(clerk, dbIds, status)
  {
    forall id | id in IdsOfStatus(clerk, dbIds, status) ensures HasRow(rows, id, status) {
      assert id in Elems(RowIds(rows));
      var i :| 0 <= i < |rows| && RowIds(rows)[i] == id;
      assert rows[i].id == id;
    }
  }

  /** Rows whose ids ascend as a list are sorted. */
  lemma RowsSortedOfIds(rows: seq<ReportRow>)
    requires StrictlySorted(RowIds(rows))
    ensures RowsSorted(rows)
  {
    assert forall i :: 0 <= i < |rows| ==> RowIds(rows)[i] == rows[i].id;
  }

  /** In sorted, classified rows that carry every id of either side, the
      ids collected for a status ascend and are those the status stands for. */
  lemma ClassifiedStatusIds(rows: seq<ReportRow>, clerk: set<string>, dbIds: set<string>,
                            status: Status, ids: seq<string>)
    requires Classified(rows, clerk, dbIds)
    requires Elems(RowIds(rows)) == clerk + dbIds
    requires RowsSorted(rows)
    requires ids == IdsWithStatus(rows, status)
    ensures StrictlySorted(ids)
    ensures Elems(ids) == IdsOfStatus(clerk, dbIds, status)
  {
    ClassifiedIds(rows, clerk, dbIds, status);
    IdsWithStatusSorted(rows, status);
  }

  /** The ids collected for one status are exactly the ids that status
      stands for, in ascending order. */
  lemma IdsWithStatusOfReport(users: seq<ClerkUser>, db: seq<DbUser>, status: Status)
    ensures var ids := IdsWithStatus(BuildReport(users, db).rows, status);
            && StrictlySorted(ids)
            && Elems(ids) == IdsOfStatus(ClerkIds(users), DbIds(db), status)
  {
    var rows := BuildReport(users, db).rows;
    ReportCoversUnion(users, db);
    ReportStatuses(users, db);
    RowsSortedOfIds(rows);
    ClassifiedStatusIds(rows, ClerkIds(users), DbIds(db), status, IdsWithStatus(rows, status));
  }

  /** The three status lists of sorted, classified rows that carry every id
      of either side: each ascends and holds the ids its status stands for,
      so together they split the ids of the table. */
  lemma ClassifiedLists(rows: seq<ReportRow>, clerk: set<string>, dbIds: set<string>,
                        orphaned: seq<string>, unused: seq<string>, ok: seq<string>)
    requires Classified(rows, clerk, dbIds)
    requires Elems(RowIds(rows)) == clerk + dbIds
    requires RowsSorted(rows)
    requires orphaned == IdsWithStatus(rows, OrphanedDbData)
    requires unused == IdsWithStatus(rows, NoDbData)
    requires ok == IdsWithStatus(rows, Ok)
    ensures StrictlySorted(orphaned) && StrictlySorted(unused)
    ensures Elems(orphaned) == dbIds - clerk
    ensures Elems(unused) == clerk - dbIds
    ensures Elems(orphaned) !! Elems(unused)
    ensures Elems(ok) == clerk * dbIds
    ensures Elems(orphaned) + Elems(unused) + Elems(ok) == Elems(RowIds(rows))
  {
    ClassifiedStatusIds(rows, clerk, dbIds, OrphanedDbData, orphaned);
    ClassifiedStatusIds(rows, clerk, dbIds, NoDbData, unused);
    ClassifiedStatusIds(rows, clerk, dbIds, Ok, ok);
  }

  /** `orphaned_db` and `unused_clerk` list, in ascending order, exactly the
      database-only and the Clerk-only ids; they are disjoint, and together
      with the ids marked `ok` they make up all ids of the table. */
  lemma ReportLists(users: seq<ClerkUser>, db: seq<DbUser>)
    ensures var rep := BuildReport(users, db);
            && StrictlySorted(rep.orphanedDb)
            && StrictlySorted(rep.unusedClerk)
            && Elems(rep.orphanedDb) == DbIds(db) - ClerkIds(users)
            && Elems(rep.unusedClerk) == ClerkIds(users) - DbIds(db)
            && Elems(rep.orphanedDb) !! Elems(rep.unusedClerk)
            && Elems(IdsWithStatus(rep.rows, Ok)) == ClerkIds(users) * DbIds(db)
            && Elems(rep.orphanedDb) + Elems(rep.unusedClerk) + Elems(IdsWithStatus(rep.rows, Ok))
               == Elems(RowIds(rep.rows))
  {
    var rep := BuildReport(users, db);
    ReportCoversUnion(users, db);
    ReportStatuses(users, db);
    RowsSortedOfIds(rep.rows);
    ClassifiedLists(rep.rows, ClerkIds(users), DbIds(db), rep.orphanedDb, rep.unusedClerk,
                    IdsWithStatus(rep.rows, Ok));
  }

  /** Every line of `OrphanedEntries` is an orphan entry. */
  lemma OrphanedEntriesKind(ids: seq<string>, db: seq<DbUser>)
    requires forall i :: 0 <= i < |ids| ==> ids[i] in DbIds(db)
    ensures forall l :: l in OrphanedEntries(ids, db) ==> l.OrphanedEntry?
  {
    var lines := OrphanedEntries(ids, db);
    forall l | l in lines ensures l.OrphanedEntry? {
      var i :| 0 <= i < |lines| && lines[i] == l;
      assert IsFirstRowFor(db, ids[i], FirstRowFor(db, ids[i]));
    }
  }

  /** Every line of `UnusedEntries` is an unused-account entry. */
  lemma UnusedEntriesKind(ids: seq<string>, byId: map<string, ClerkUser>)
    requires forall i :: 0 <= i < |ids| ==> ids[i] in byId
    ensures forall l :: l in UnusedEntries(ids, byId) ==> l.UnusedEntry?
  {
    var lines := UnusedEntries(ids, byId);
    forall l | l in lines ensures l.UnusedEntry? {
      var i :| 0 <= i < |lines| && lines[i] == l;
    }
  }

  /** The totals, notices and headers of any summary: it opens with both
      totals; the "none found" notice appears exactly when there is no
      orphan, and the orphan header follows the totals otherwise; the unused
      header appears exactly when there are unused accounts, and with none
      the summary has no unused line at all. */
  lemma SummaryNotices(clerkTotal: nat, db: seq<DbUser>, byId: map<string, ClerkUser>,
                       orphaned: seq<string>, unused: seq<string>, s: seq<SummaryLine>)
    requires forall i :: 0 <= i < |orphaned| ==> orphaned[i] in DbIds(db)
    requires forall i :: 0 <= i < |unused| ==> unused[i] in byId
    requires s == Summary(clerkTotal, db, byId, orphaned, unused)
    ensures |s| >= 3
    ensures s[0] == ClerkTotal(clerkTotal) && s[1] == DbTotal(|db|)
    ensures NoOrphanedNotice in s <==> orphaned == []
    ensures orphaned != [] ==> s[2] == OrphanedHeader(|orphaned|)
    ensures orphaned == [] ==> s[2] == NoOrphanedNotice
    ensures UnusedHeader(|unused|) in s <==> unused != []
    ensures unused == [] ==> forall l :: l in s ==> !l.UnusedHeader? && !l.UnusedEntry?
  {
    var head := [ClerkTotal(clerkTotal), DbTotal(|db|)];
    var orphanPart := OrphanSection(orphaned, db);
    var unusedPart := UnusedSection(unused, byId);
    assert s == head + orphanPart + unusedPart;
    OrphanSectionKind(orphaned, db);
    UnusedSectionKind(unused, byId);
    if unused != [] {
      assert unusedPart[0] == UnusedHeader(|unused|);
    }
  }

  /** The orphan section holds the "none found" notice exactly when there
      is no orphan, and never an unused-account line. */
  lemma OrphanSectionKind(orphaned: seq<string>, db: seq<DbUser>)
    requires forall i :: 0 <= i < |orphaned| ==> orphaned[i] in DbIds(db)
    ensures NoOrphanedNotice in OrphanSection(orphaned, db) <==> orphaned == []
    ensures forall l :: l in OrphanSection(orphaned, db) ==> !l.UnusedHeader? && !l.UnusedEntry?
    ensures orphaned != [] ==> OrphanSection(orphaned, db)[0] == OrphanedHeader(|orphaned|)
    ensures orphaned == [] ==> OrphanSection(orphaned, db) == [NoOrphanedNotice]
  {
    OrphanedEntriesKind(orphaned, db);
  }

  /** The unused section holds only unused-account lines, and its header
      exactly when there is an unused account. */
  lemma UnusedSectionKind(unused: seq<string>, byId: map<string, ClerkUser>)
    requires forall i :: 0 <= i < |unused| ==> unused[i] in byId
    ensures forall l :: l in UnusedSection(unused, byId) ==> l.UnusedHeader? || l.UnusedEntry?
    ensures UnusedHeader(|unused|) in UnusedSection(unused, byId) <==> unused != []
  {
    UnusedEntriesKind(unused, byId);
  }

  /** The number of summary lines the orphan section takes: the header and
      one entry per id, or the single "none found" notice. */
  function OrphanLines(orphaned: seq<string>): nat {
    if orphaned == [] then 1 else 1 + |orphaned|
  }

  /** The number of summary lines the unused section takes: the header and
      one entry per id, or nothing at all. */
  function UnusedLines(unused: seq<string>): nat {
    if unused == [] then 0 else 1 + |unused|
  }

  /** The layout of any summary, line by line: two totals, then the orphan
      section (entry `i` on line `3 + i`, with the counts of the id's first
      database row), then the unused section (header on line `2 + o`, entry
      `i` on line `3 + o + i`, where `o` is the orphan section's length). */
  lemma SummaryEntriesListed(clerkTotal: nat, db: seq<DbUser>, byId: map<string, ClerkUser>,
                             orphaned: seq<string>, unused: seq<string>, s: seq<SummaryLine>)
    requires forall i :: 0 <= i < |orphaned| ==> orphaned[i] in DbIds(db)
    requires forall i :: 0 <= i < |unused| ==> unused[i] in byId
    requires s == Summary(clerkTotal, db, byId, orphaned, unused)
    ensures |s| == 2 + OrphanLines(orphaned) + UnusedLines(unused)
    ensures forall i, k :: 0 <= i < |orphaned| && IsFirstRowFor(db, orphaned[i], k) ==>
              s[3 + i] == OrphanedEntry(orphaned[i], db[k].tripCount, db[k].masterItemCount)
    ensures unused != [] ==> s[2 + OrphanLines(orphaned)] == UnusedHeader(|unused|)
    ensures forall i :: 0 <= i < |unused| ==>
              s[3 + OrphanLines(orphaned) + i] == UnusedEntry(unused[i], byId[unused[i]].email)
  {
    var head := [ClerkTotal(clerkTotal), DbTotal(|db|)];
    var orphanPart := OrphanSection(orphaned, db);
    var unusedPart := UnusedSection(unused, byId);
    assert |orphanPart| == OrphanLines(orphaned);
    assert |unusedPart| == UnusedLines(unused);
    forall i, k | 0 <= i < |orphaned| && IsFirstRowFor(db, orphaned[i], k)
      ensures s[3 + i] == OrphanedEntry(orphaned[i], db[k].tripCount, db[k].masterItemCount)
    {
      ConcatMiddleAt(head, orphanPart, unusedPart, 1 + i);
      OrphanSectionAt(orphaned, db, i, k);
    }
    if unused != [] {
      ConcatLastAt(head, orphanPart, unusedPart, 0);
    }
    forall i | 0 <= i < |unused|
      ensures s[3 + OrphanLines(orphaned) + i] == UnusedEntry(unused[i], byId[unused[i]].email)
    {
      ConcatLastAt(head, orphanPart, unusedPart, 1 + i);
      UnusedSectionAt(unused, byId, i);
    }
  }

  /** Line `1 + i` of the orphan section is the entry of the `i`th id. */
  lemma OrphanSectionAt(orphaned: seq<string>, db: seq<DbUser>, i: int, k: int)
    requires forall j :: 0 <= j < |orphaned| ==> orphaned[j] in DbIds(db)
    requires 0 <= i < |orphaned| && IsFirstRowFor(db, orphaned[i], k)
    ensures |OrphanSection(orphaned, db)| == 1 + |orphaned|
    ensures OrphanSection(orphaned, db)[1 + i] == OrphanedEntry(orphaned[i], db[k].tripCount, db[k].masterItemCount)
  {
    var entries := OrphanedEntries(orphaned, db);
    var sec := [OrphanedHeader(|orphaned|)] + entries;
    assert OrphanSection(orphaned, db) == sec;
    assert sec[1 + i] == entries[i];
  }

  /** Line `1 + i` of the unused section is the entry of the `i`th id. */
  lemma UnusedSectionAt(unused: seq<string>, byId: map<string, ClerkUser>, i: int)
    requires forall j :: 0 <= j < |unused| ==> unused[j] in byId
    requires 0 <= i < |unused|
    ensures |UnusedSection(unused, byId)| == 1 + |unused|
    ensures UnusedSection(unused, byId)[1 + i] == UnusedEntry(unused[i], byId[unused[i]].email)
  {
    var entries := UnusedEntries(unused, byId);
    var sec := [UnusedHeader(|unused|)] + entries;
    assert UnusedSection(unused, byId) == sec;
    assert sec[1 + i] == entries[i];
  }

  /** Indexing into the middle part of a three-part concatenation. */
  lemma ConcatMiddleAt<T>(a: seq<T>, b: seq<T>, c: seq<T>, j: int)
    requires 0 <= j < |b|
    ensures (a + b + c)[|a| + j] == b[j]
  {
  }

  /** Indexing into the last part of a three-part concatenation. */
  lemma ConcatLastAt<T>(a: seq<T>, b: seq<T>, c: seq<T>, j: int)
    requires 0 <= j < |c|
    ensures (a + b + c)[|a| + |b| + j] == c[j]
  {
  }

  /** The summary opens with both totals; the "No orphaned DB data found"
      notice appears exactly when `orphaned_db` is empty, and an empty
      `unused_clerk` leaves no trace at all in the summary. */
  lemma ReportSummary(users: seq<ClerkUser>, db: seq<DbUser>)
    ensures var rep := BuildReport(users, db);
            && |rep.summary| >= 3
            && rep.summary[0] == ClerkTotal(|users|)
            && rep.summary[1] == DbTotal(|db|)
            && (NoOrphanedNotice in rep.summary <==> rep.orphanedDb == [])
            && (rep.orphanedDb != [] ==> rep.summary[2] == OrphanedHeader(|rep.orphanedDb|))
            && (rep.orphanedDb == [] ==> rep.summary[2] == NoOrphanedNotice)
            && (rep.unusedClerk != [] <==> UnusedHeader(|rep.unusedClerk|) in rep.summary)
            && (rep.unusedClerk == [] ==> forall l :: l in rep.summary ==> !l.UnusedHeader? && !l.UnusedEntry?)
  {
    var rep := BuildReport(users, db);
    var byId := IndexById(users);
    RowsClassified(users, db, byId, rep.rows);
    ListedInSources(rep.rows, ClerkIds(users), DbIds(db), rep.orphanedDb, rep.unusedClerk);
    SummaryNotices(|users|, db, byId, rep.orphanedDb, rep.unusedClerk, rep.summary);
  }

  /** The summary line by line: orphaned id `i` is listed on line `3 + i`
      with the trip and item counts of its first database row; after the
      orphan section (of `o` lines) comes the unused header on line `2 + o`,
      and unused account `i` on line `3 + o + i` with the email of its last
      Clerk record. Nothing follows. */
  lemma ReportSummaryEntries(users: seq<ClerkUser>, db: seq<DbUser>)
    ensures var rep := BuildReport(users, db);
            var o := OrphanLines(rep.orphanedDb);
            && |rep.summary| == 2 + o + UnusedLines(rep.unusedClerk)
            && (forall i, k :: 0 <= i < |rep.orphanedDb| && IsFirstRowFor(db, rep.orphanedDb[i], k) ==>
                  rep.summary[3 + i] == OrphanedEntry(rep.orphanedDb[i], db[k].tripCount, db[k].masterItemCount))
            && (rep.unusedClerk != [] ==> rep.summary[2 + o] == UnusedHeader(|rep.unusedClerk|))
            && (forall i, j :: 0 <= i < |rep.unusedClerk| && 0 <= j < |users| && users[j].id == rep.unusedClerk[i] && LastWithId(users, j) ==>
                  rep.summary[3 + o + i] == UnusedEntry(rep.unusedClerk[i], users[j].email))
  {
    var rep := BuildReport(users, db);
    var byId := IndexById(users);
    RowsClassified(users, db, byId, rep.rows);
    ListedInSources(rep.rows, ClerkIds(users), DbIds(db), rep.orphanedDb, rep.unusedClerk);
    SummaryEntriesListed(|users|, db, byId, rep.orphanedDb, rep.unusedClerk, rep.summary);
    forall j | 0 <= j < |users| && LastWithId(users, j) ensures byId[users[j].id] == users[j] {
      IndexByIdLastWins(users, j);
    }
  }

  /** The order of the table depends only on which ids occur: reordering or
      repeating records in either input leaves the sequence of row ids as it is. */
  lemma ReportOrderDeterministic(users: seq<ClerkUser>, db: seq<DbUser>, users': seq<ClerkUser>, db': seq<DbUser>)
    requires ClerkIds(users) == ClerkIds(users') && DbIds(db) == DbIds(db')
    ensures RowIds(BuildReport(users, db).rows) == RowIds(BuildReport(users', db').rows)
  {
    ReportCoversUnion(users, db);
    ReportCoversUnion(users', db');
    SortedUnique(RowIds(BuildReport(users, db).rows), RowIds(BuildReport(users', db').rows));
  }

  /** One Clerk user `u1` without database rows and one database user `u2`
      with three trips and no Clerk account: two rows, `u1` unused and `u2`
      orphaned. */
  lemma TwoUserExample()
    ensures var rep := BuildReport([ClerkUser("u1", "a@x.com")], [DbUser("u2", 3, 0, 0, 0)]);
            && rep.rows == [ReportRow("u1", "a@x.com", 0, 0, 0, 0, NoDbData),
                            ReportRow("u2", "", 3, 0, 0, 0, OrphanedDbData)]
            && rep.orphanedDb == ["u2"]
            && rep.unusedClerk == ["u1"]
  {
    var users, db := [ClerkUser("u1", "a@x.com")], [DbUser("u2", 3, 0, 0, 0)];
    assert Less("u1", "u2") by {
      assert "u1"[1..] == "1" && "u2"[1..] == "2";
    }
    assert ClerkIds(users) == {"u1"} by {
      assert users[0] in users;
    }
    assert DbIds(db) == {"u2"} by {
      assert db[0] in db;
    }
    var expected := ["u1", "u2"];
    assert Elems(expected) == {"u1", "u2"} by {
      assert expected[0] in expected && expected[1] in expected;
    }
    SortedUnique(AllIds(users, db), expected);
    assert FirstRowFor(db, "u2") == 0;
    assert "u1" != "u2";
  }

  /** The summary of the same two users: both totals are 1, `u2` is listed
      under the orphan header with its 3 trips, and `u1` under the unused
      header with its email. */
  lemma TwoUserSummaryExample()
    ensures BuildReport([ClerkUser("u1", "a@x.com")], [DbUser("u2", 3, 0, 0, 0)]).summary
              == [ClerkTotal(1), DbTotal(1), OrphanedHeader(1), OrphanedEntry("u2", 3, 0),
                  UnusedHeader(1), UnusedEntry("u1", "a@x.com")]
  {
    var users, db := [ClerkUser("u1", "a@x.com")], [DbUser("u2", 3, 0, 0, 0)];
    TwoUserExample();
    SummaryOfOneEach(users, db, "u2", "u1");
  }

  /** The summary of a report with one Clerk record, one database row, one
      orphaned id and one unused id, line by line. */
  lemma SummaryOfOneEach(users: seq<ClerkUser>, db: seq<DbUser>, orphan: string, unused: string)
    requires |users| == 1 && |db| == 1
    ensures BuildReport(users, db).orphanedDb == [orphan] && BuildReport(users, db).unusedClerk == [unused] ==>
              BuildReport(users, db).summary
                == [ClerkTotal(1), DbTotal(1), OrphanedHeader(1),
                    OrphanedEntry(orphan, db[0].tripCount, db[0].masterItemCount),
                    UnusedHeader(1), UnusedEntry(unused, users[0].email)]
  {
    var rep := BuildReport(users, db);
    if rep.orphanedDb == [orphan] && rep.unusedClerk == [unused] {
      ReportSummary(users, db);
      ReportSummaryEntries(users, db);
      RowsClassified(users, db, IndexById(users), rep.rows);
      ListedInSources(rep.rows, ClerkIds(users), DbIds(db), rep.orphanedDb, rep.unusedClerk);
      assert rep.orphanedDb[0] == orphan && rep.unusedClerk[0] == unused;
      OneRowFirst(db, orphan);
      OneUserId(users, unused);
      var s := rep.summary;
      assert |s| == 6;
      assert s[3] == OrphanedEntry(orphan, db[0].tripCount, db[0].masterItemCount);
      assert s[4] == UnusedHeader(1);
      assert s[5] == UnusedEntry(unused, users[0].email);
      SixLines(s);
    }
  }

  /** A six-line summary is the display of its six lines. */
  lemma SixLines(s: seq<SummaryLine>)
    requires |s| == 6
    ensures s == [s[0], s[1], s[2], s[3], s[4], s[5]]
  {
  }

  /** With a single Clerk record, a Clerk id is that record's id, and the
      record is the last one carrying it. */
  lemma OneUserId(users: seq<ClerkUser>, id: string)
    requires |users| == 1
    ensures id in ClerkIds(users) ==> users[0].id == id && LastWithId(users, 0)
  {
    if id in ClerkIds(users) {
      var u :| u in users && u.id == id;
    }
  }

  /** With a single database row, an id among the database ids has it as its first row. */
  lemma OneRowFirst(db: seq<DbUser>, id: string)
    requires |db| == 1
    ensures id in DbIds(db) ==> IsFirstRowFor(db, id, 0)
  {
    if id in DbIds(db) {
      var r :| r in db && r.clerkUserId == id;
    }
  }

}

=== FILE: audit_run.dfy ===
/** `main` from start to report: load the env file, insist on the Clerk
    secret key, fetch the Clerk users page by page, then build the report
    from them and the database rows. */
module AuditRun {
  import opened Common
  import opened EnvFile
  import opened ClerkClient
  import opened Audit
  import opened StringOrder

  /** The ways the run stops before printing a report (each exits with status 1). */
  datatype RunError =
    | EnvFileMissing
    | EnvAssignmentRefused(lineIndex: nat, key: string)
    | SecretKeyMissing

  /** The variable holding the Clerk API key. */
  const SecretKeyName: string := "CLERK_SECRET_KEY"

  /** `os.environ.get("CLERK_SECRET_KEY", "")`. */
  function SecretKey(env: map<string, string>): string {
    if SecretKeyName in env then env[SecretKeyName] else ""
  }

  /** What a complete run produces: the final environment, the number of
      page requests and the report. */
  datatype Outcome = Outcome(env: map<string, string>, requests: nat, report: Report)

  /** One run. `env` is the process environment at start, `envFile` the lines
      of `.env.production.local` (`None` when the file does not exist),
      `batches` the pages the Clerk API serves and `db` the rows of the
      database query. */
  function Run(env: map<string, string>, envFile: Option<seq<string>>,
               batches: seq<seq<ApiUser>>, db: seq<DbUser>): (r: Result<Outcome, RunError>)
    ensures r == Failure(EnvFileMissing) <==> envFile.None?
    ensures envFile.Some? && (exists i :: 0 <= i < |envFile.value| && Refused(ParseLine(envFile.value[i]))) ==>
              r.Failure? && r.error.EnvAssignmentRefused?
    ensures r.Failure? && r.error.EnvAssignmentRefused? ==>
              && envFile.Some?
              && r.error.lineIndex < |envFile.value|
              && Refused(ParseLine(envFile.value[r.error.lineIndex]))
              && r.error.key == ParseLine(envFile.value[r.error.lineIndex]).key
              && forall j :: 0 <= j < r.error.lineIndex ==> !Refused(ParseLine(envFile.value[j]))
    ensures (r.Success? || r == Failure(SecretKeyMissing)) <==>
              envFile.Some? && forall j :: 0 <= j < |envFile.value| ==> !Refused(ParseLine(envFile.value[j]))
    ensures r.Success? ==> SecretKey(r.value.env) != ""
    ensures r.Success? ==>
              && r.value.env == LoadEnv(env, envFile.value).value
              && r.value.requests == FetchPages(batches).requests
              && r.value.report == BuildReport(FetchPages(batches).users, db)
  {
    match envFile
    case None => Failure(EnvFileMissing)
    case Some(lines) =>
      match LoadEnv(env, lines)
      case Failure(RefusedAssignment(i, k)) => Failure(EnvAssignmentRefused(i, k))
      case Success(env') =>
        if SecretKey(env') == "" then Failure(SecretKeyMissing)
        else
          var fetched := FetchPages(batches);
          Success(Outcome(env', fetched.requests, BuildReport(fetched.users, db)))
  }

  /** When the last line setting `CLERK_SECRET_KEY` is line `i` and the file
      loads, the run goes ahead exactly when that line gives a non-empty value. */
  lemma RunSecretKeyFromFile(env: map<string, string>, lines: seq<string>,
                             batches: seq<seq<ApiUser>>, db: seq<DbUser>, i: int)
    requires 0 <= i < |lines|
    requires forall j :: i < j < |lines| ==> !Sets(ParseLine(lines[j]), SecretKeyName)
    ensures Sets(ParseLine(lines[i]), SecretKeyName) && LoadEnv(env, lines).Success? ==>
              (Run(env, Some(lines), batches, db).Success? <==> ParseLine(lines[i]).value != "")
  {
    LoadEnvLastWins(env, lines, i, SecretKeyName);
  }

  /** When no line of the file sets `CLERK_SECRET_KEY` and the file loads, the
      run goes ahead exactly when the process environment already holds a
      non-empty key. */
  lemma RunSecretKeyFromEnv(env: map<string, string>, lines: seq<string>,
                            batches: seq<seq<ApiUser>>, db: seq<DbUser>)
    ensures (forall j :: 0 <= j < |lines| ==> !Sets(ParseLine(lines[j]), SecretKeyName)) && LoadEnv(env, lines).Success? ==>
              (Run(env, Some(lines), batches, db).Success? <==> SecretKey(env) != "")
  {
    LoadEnvKeepsUnset(env, lines, SecretKeyName);
  }

  /** A run that goes ahead reports every id of the fetched Clerk users and
      of the database rows, each once, in ascending order. */
  lemma RunReportCoversUnion(env: map<string, string>, envFile: Option<seq<string>>,
                             batches: seq<seq<ApiUser>>, db: seq<DbUser>, r: Result<Outcome, RunError>)
    ensures r == Run(env, envFile, batches, db) && r.Success? ==>
              && StrictlySorted(RowIds(r.value.report.rows))
              && Elems(RowIds(r.value.report.rows)) == ClerkIds(FetchPages(batches).users) + DbIds(db)
  {
    if r == Run(env, envFile, batches, db) && r.Success? {
      var fetched := FetchPages(batches);
      assert r.value.report == BuildReport(fetched.users, db);
      ReportCoversUnion(fetched.users, db);
    }
  }
}

=== FILE: clerk_client.dfy ===
/** The paging loop of `fetch_clerk_users`: pages of the Clerk user list are
    requested one after another until a short page arrives, and every user
    record is reduced to its id and first email address. */
module ClerkClient {
  import opened Common

  /** One entry of a Clerk user's `email_addresses` list; the
      `email_address` field may be missing. */
  datatype EmailAddress = EmailAddress(emailAddress: Option<string>)

  /** A user record as the Clerk API returns it (only the fields the audit reads). */
  datatype ApiUser = ApiUser(id: string, emailAddresses: seq<EmailAddress>)

  /** The normalised record the audit keeps for each Clerk user. */
  datatype ClerkUser = ClerkUser(id: string, email: string)

  /** The `limit` asked of every page request. */
  const PageSize: nat := 100

  /** The first address of the user, or `""` when the list is empty or the
      first entry has no `email_address`. */
  function PrimaryEmail(u: ApiUser): string {
    if u.emailAddresses == [] then "" else u.emailAddresses[0].emailAddress.GetOr("")
  }

  /** The records of one batch, normalised one by one and kept in order. */
  function Normalise(batch: seq<ApiUser>): (users: seq<ClerkUser>)
    ensures |users| == |batch|
  {
    if batch == [] then []
    else [ClerkUser(batch[0].id, PrimaryEmail(batch[0]))] + Normalise(batch[1..])
  }

  /** Each normalised record keeps the id of its source record, and its
      email is `""` when the source has no addresses and otherwise the first
      address (itself `""` when that entry has none). */
  lemma {:induction false} NormaliseFields(batch: seq<ApiUser>)
    ensures forall i :: 0 <= i < |batch| ==>
              && Normalise(batch)[i].id == batch[i].id
              && (batch[i].emailAddresses == [] ==> Normalise(batch)[i].email == "")
              && (batch[i].emailAddresses != [] ==>
                    Normalise(batch)[i].email == batch[i].emailAddresses[0].emailAddress.GetOr(""))
  {
    if batch != [] {
      NormaliseFields(batch[1..]);
      forall i | 1 <= i < |batch|
        ensures Normalise(batch)[i] == Normalise(batch[1..])[i - 1]
        ensures batch[i] == batch[1..][i - 1]
      {
      }
    }
  }

  /** Normalisation works record by record, so it distributes over `+`. */
  lemma {:induction false} NormaliseAppend(a: seq<ApiUser>, b: seq<ApiUser>)
    ensures Normalise(a + b) == Normalise(a) + Normalise(b)
  {
    if a == [] {
      assert a + b == b;
    } else {
      assert (a + b)[0] == a[0] && (a + b)[1..] == a[1..] + b;
      NormaliseAppend(a[1..], b);
    }
  }

  /** All batches one after another. */
  function Concat(batches: seq<seq<ApiUser>>): seq<ApiUser> {
    if batches == [] then [] else batches[0] + Concat(batches[1..])
  }

  /** The sum of the batch sizes. */
  function TotalSize(batches: seq<seq<ApiUser>>): nat {
    if batches == [] then 0 else |batches[0]| + TotalSize(batches[1..])
  }

  lemma {:induction false} ConcatLength(batches: seq<seq<ApiUser>>)
    ensures |Concat(batches)| == TotalSize(batches)
  {
    if batches != [] {
      ConcatLength(batches[1..]);
    }
  }

  /** The answer to the request for page `i + 1`: the API's pages are the
      batches in order, and every page past the last batch is empty. */
  function PageAt(batches: seq<seq<ApiUser>>, i: nat): seq<ApiUser> {
    if i < |batches| then batches[i] else []
  }

  /** How many page requests the loop made and the users it collected. */
  datatype Fetched = Fetched(requests: nat, users: seq<ClerkUser>)

  function Min(a: nat, b: nat): nat {
    if a <= b then a else b
  }

  /** The paging loop: a page that is empty or shorter than `PageSize` ends
      it; otherwise its users are kept and the next page is asked for.
      The loop stops at the first short page, and the users are those of all
      pages requested, in order. */
  function FetchPages(batches: seq<seq<ApiUser>>): (r: Fetched)
    ensures 1 <= r.requests <= |batches| + 1
    ensures forall i :: 0 <= i < r.requests - 1 ==> |PageAt(batches, i)| >= PageSize
    ensures |PageAt(batches, r.requests - 1)| < PageSize
    ensures r.users == Normalise(Concat(batches[..Min(r.requests, |batches|)]))
  {
    if batches == [] then Fetched(1, [])
    else if batches[0] == [] then
      assert batches[..1] == [[]];
      Fetched(1, [])
    else if |batches[0]| < PageSize then
      assert batches[..1] == [batches[0]];
      assert Concat(batches[..1]) == batches[0] + Concat([]) == batches[0];
      Fetched(1, Normalise(batches[0]))
    else
      var rest := FetchPages(batches[1..]);
      var k := Min(rest.requests, |batches| - 1);
      PagesTail(batches, k);
      NormaliseAppend(batches[0], Concat(batches[1..][..k]));
      PageAtTail(batches);
      Fetched(rest.requests + 1, Normalise(batches[0]) + rest.users)
  }

  /** The first `k + 1` batches are the first one, then the first `k` of the rest. */
  lemma PagesTail(batches: seq<seq<ApiUser>>, k: nat)
    requires k < |batches|
    ensures Concat(batches[..k + 1]) == batches[0] + Concat(batches[1..][..k])
  {
    assert batches[..k + 1][0] == batches[0] && batches[..k + 1][1..] == batches[1..][..k];
  }

  /** Page `i + 1` of the rest of the batches is page `i + 2` of all of them. */
  lemma PageAtTail(batches: seq<seq<ApiUser>>)
    requires batches != []
    ensures forall i: nat :: 0 < i ==> PageAt(batches, i) == PageAt(batches[1..], i - 1)
  {
  }

  /** The number of users collected is the sum of the sizes of the pages
      requested. */
  lemma FetchPagesCount(batches: seq<seq<ApiUser>>)
    ensures var r := FetchPages(batches);
            |r.users| == TotalSize(batches[..Min(r.requests, |batches|)])
  {
    var r := FetchPages(batches);
    ConcatLength(batches[..Min(r.requests, |batches|)]);
  }

  /** Pages of 100, 100 and 37 users: three requests, 237 users. */
  lemma ThreePagesExample(batches: seq<seq<ApiUser>>)
    requires |batches| == 3 && |batches[0]| == 100 && |batches[1]| == 100 && |batches[2]| == 37
    ensures FetchPages(batches).requests == 3
    ensures |FetchPages(batches).users| == 237
  {
    assert batches[..3] == batches;
    assert PageAt(batches, 0) == batches[0] && PageAt(batches, 1) == batches[1];
    FetchPagesUnique(batches, 3, Normalise(Concat(batches)));
    ConcatLength(batches);
    assert batches[1..][1..] == [batches[2]];
    assert TotalSize(batches) == 100 + TotalSize(batches[1..]);
    assert TotalSize(batches[1..]) == 100 + TotalSize(batches[1..][1..]);
  }

  /** A full page followed by an empty one: two requests, 100 users. */
  lemma FullThenEmptyExample(batches: seq<seq<ApiUser>>)
    requires |batches| == 2 && |batches[0]| == 100 && batches[1] == []
    ensures FetchPages(batches).requests == 2
    ensures |FetchPages(batches).users| == 100
  {
    assert batches[..2] == batches;
    FetchPagesUnique(batches, 2, Normalise(Concat(batches)));
    ConcatLength(batches);
  }

  /** Appending one batch at the end appends its records. */
  lemma {:induction false} ConcatSnoc(batches: seq<seq<ApiUser>>, b: seq<ApiUser>)
    ensures Concat(batches + [b]) == Concat(batches) + b
  {
    if batches == [] {
      assert [b][1..] == [];
    } else {
      assert (batches + [b])[1..] == batches[1..] + [b];
      ConcatSnoc(batches[1..], b);
    }
  }

  /** The stopping rule and the collected users pin down the outcome of the
      paging loop: anything that satisfies `FetchPages`'s contract is its result. */
  lemma FetchPagesUnique(batches: seq<seq<ApiUser>>, requests: nat, users: seq<ClerkUser>)
    requires 1 <= requests <= |batches| + 1
    requires forall i :: 0 <= i < requests - 1 ==> |PageAt(batches, i)| >= PageSize
    requires |PageAt(batches, requests - 1)| < PageSize
    requires users == Normalise(Concat(batches[..Min(requests, |batches|)]))
    ensures FetchPages(batches) == Fetched(requests, users)
  {
    var r := FetchPages(batches);
  }

  /** The `while True` loop of `fetch_clerk_users`, one request per turn. */
  method FetchClerkUsers(batches: seq<seq<ApiUser>>) returns (users: seq<ClerkUser>, requests: nat)
    ensures Fetched(requests, users) == FetchPages(batches)
  {
    users := [];
    requests := 0;
    var page: nat := 1;
    while true
      invariant requests == page - 1 <= |batches|
      invariant forall i :: 0 <= i < requests ==> |PageAt(batches, i)| >= PageSize
      invariant users == Normalise(Concat(batches[..requests]))
      decreases |batches| - requests
    {
      var batch := PageAt(batches, page - 1);
      if requests < |batches| {
        assert batches[..requests + 1] == batches[..requests] + [batch];
        ConcatSnoc(batches[..requests], batch);
        NormaliseAppend(Concat(batches[..requests]), batch);
      }
      requests := requests + 1;
      if batch == [] {
        break;
      }
      users := users + Normalise(batch);
      if |batch| < PageSize {
        break;
      }
      page := page + 1;
    }
    FetchPagesUnique(batches, requests, users);
  }
}

=== FILE: common.dfy ===
/** Small shared vocabulary: optional values, results with an error side,
    and the element set of a sequence. */
module Common {

  /** A value that may be absent (Python's `None`). */
  datatype Option<+T> = None | Some(value: T) {

    /** The wrapped value, or `default` when absent (Python's `dict.get(key, default)`). */
    function GetOr(default: T): T {
      match this
      case Some(v) => v
      case None => default
    }
  }

  /** Either a computed value or the error that ended the run. */
  datatype Result<+R, +E> = Success(value: R) | Failure(error: E)

  /** The set of elements of a sequence. */
  function Elems<T>(s: seq<T>): set<T> {
    set x | x in s
  }
}

=== FILE: env_file.dfy ===
/** The loop of `load_env`: each line of `.env.production.local` is applied,
    in file order, to the process environment, modelled as a map. */
module EnvFile {
  import opened Common
  import opened Text

  /** What one line asks for: nothing, or setting one variable. */
  datatype LineEffect = Skip | Assign(key: string, value: string)

  /** Lines that are empty or start with `#` once surrounding whitespace is removed. */
  predicate IsBlankOrComment(line: string) {
    var t := StripSpace(line);
    t == [] || t[0] == '#'
  }

  /** One line of the file (see `ParseLineKeyValue` for what it extracts). */
  function ParseLine(line: string): (e: LineEffect)
    ensures e.Skip? <==> IsBlankOrComment(line)
  {
    var t := StripSpace(line);
    if t == [] || t[0] == '#' then Skip
    else
      var parts := Partition(t, '=');
      Assign(StripSpace(parts.head), StripQuotes(StripSpace(parts.tail)))
  }

  /** The key is the stripped text before the first `=`, the value the
      stripped text after it with every leading and trailing quote character
      removed (matching or not); a line without `=` is a key with an empty
      value. */
  lemma ParseLineKeyValue(line: string)
    requires !IsBlankOrComment(line)
    ensures var e, t := ParseLine(line), StripSpace(line);
            && e.Assign?
            && '=' !in e.key
            && ('=' !in t ==> e.key == t && e.value == [])
            && forall p :: 0 <= p < |t| && t[p] == '=' && '=' !in t[..p] ==>
                 && e.key == StripSpace(t[..p])
                 && e.value == StripQuotes(StripSpace(t[p + 1..]))
  {
    var t := StripSpace(line);
    StripIdempotent(line, IsSpace);
    forall p | 0 <= p < |t| && t[p] == '=' && '=' !in t[..p]
      ensures Partition(t, '=') == Parts(t[..p], true, t[p + 1..])
    {
      PartitionAtFirst(t, '=', p);
    }
    StripKeepsOut(Partition(t, '=').head, IsSpace, '=');
  }

  /** Whether the operating system accepts the assignment: Python's
      `os.environ[key] = value` raises for an empty name, a name holding `=`,
      and a NUL character in either part. */
  predicate Accepted(key: string, value: string) {
    key != [] && '=' !in key && '\0' !in key && '\0' !in value
  }

  /** An effect the environment refuses to carry out. */
  predicate Refused(e: LineEffect) {
    e.Assign? && !Accepted(e.key, e.value)
  }

  /** An effect that sets variable `k`. */
  predicate Sets(e: LineEffect, k: string) {
    e.Assign? && e.key == k
  }

  /** Carries out one line's effect; `None` when the assignment is refused.
      A skipped line leaves the environment as it was; an assignment sets
      exactly one variable and leaves every other one alone. */
  function ApplyEffect(env: map<string, string>, e: LineEffect): (r: Option<map<string, string>>)
    ensures e.Skip? ==> r == Some(env)
    ensures r.None? <==> Refused(e)
    ensures r.Some? && e.Assign? ==>
              && r.value.Keys == env.Keys + {e.key}
              && r.value[e.key] == e.value
              && forall k :: k in env && k != e.key ==> r.value[k] == env[k]
  {
    match e
    case Skip => Some(env)
    case Assign(k, v) => if Accepted(k, v) then Some(env[k := v]) else None
  }

  /** Why loading stopped: the line at `lineIndex` set a name the environment refuses. */
  datatype EnvError = RefusedAssignment(lineIndex: nat, key: string)

  /** The effects of the file's lines carried out in file order, stopping at
      the first refused one. */
  function ApplyAll(env: map<string, string>, effects: seq<LineEffect>): (r: Result<map<string, string>, EnvError>)
    ensures r.Failure? <==> exists i :: 0 <= i < |effects| && Refused(effects[i])
    ensures r.Failure? ==>
              && r.error.lineIndex < |effects|
              && Refused(effects[r.error.lineIndex])
              && r.error.key == effects[r.error.lineIndex].key
              && forall j :: 0 <= j < r.error.lineIndex ==> !Refused(effects[j])
    decreases |effects|
  {
    if effects == [] then Success(env)
    else
      var n := |effects| - 1;
      var prefix := effects[..n];
      assert forall j :: 0 <= j < n ==> prefix[j] == effects[j];
      match ApplyAll(env, prefix)
      case Failure(err) => Failure(err)
      case Success(m) =>
        match ApplyEffect(m, effects[n])
        case Some(m') => Success(m')
        case None => Failure(RefusedAssignment(n, effects[n].key))
  }

  /** The effect of every line of the file, in order. */
  function ParseLines(lines: seq<string>): (effects: seq<LineEffect>)
    ensures |effects| == |lines|
    ensures forall i :: 0 <= i < |lines| ==> effects[i] == ParseLine(lines[i])
  {
    seq(|lines|, i requires 0 <= i < |lines| => ParseLine(lines[i]))
  }

  /** `load_env` on the lines of the file, starting from environment `env`. */
  function LoadEnv(env: map<string, string>, lines: seq<string>): (r: Result<map<string, string>, EnvError>)
    ensures r.Failure? <==> exists i :: 0 <= i < |lines| && Refused(ParseLine(lines[i]))
    ensures r.Failure? ==>
              && r.error.lineIndex < |lines|
              && Refused(ParseLine(lines[r.error.lineIndex]))
              && r.error.key == ParseLine(lines[r.error.lineIndex]).key
              && forall j :: 0 <= j < r.error.lineIndex ==> !Refused(ParseLine(lines[j]))
  {
    var effects := ParseLines(lines);
    assert forall i :: 0 <= i < |lines| ==> effects[i] == ParseLine(lines[i]);
    ApplyAll(env, effects)
  }

  /** Blank and comment lines change nothing: applying a run of skipped
      lines gives back the starting environment. */
  lemma {:induction false} ApplyAllSkips(env: map<string, string>, effects: seq<LineEffect>)
    requires forall i :: 0 <= i < |effects| ==> effects[i].Skip?
    ensures ApplyAll(env, effects) == Success(env)
    decreases |effects|
  {
    if effects != [] {
      var n := |effects| - 1;
      ApplyAllSkips(env, effects[..n]);
    }
  }

  /** A variable that no line sets keeps its value from the starting
      environment, and stays absent if it was absent. */
  lemma {:induction false} ApplyAllKeepsUnset(env: map<string, string>, effects: seq<LineEffect>, k: string)
    requires ApplyAll(env, effects).Success?
    requires forall i :: 0 <= i < |effects| ==> !Sets(effects[i], k)
    ensures k in ApplyAll(env, effects).value <==> k in env
    ensures k in env ==> ApplyAll(env, effects).value[k] == env[k]
    decreases |effects|
  {
    if effects != [] {
      var n := |effects| - 1;
      ApplyAllKeepsUnset(env, effects[..n], k);
    }
  }

  /** Later lines win: a variable ends up with the value given by the last
      line that sets it. */
  lemma {:induction false} ApplyAllLastWins(env: map<string, string>, effects: seq<LineEffect>, i: int)
    requires ApplyAll(env, effects).Success?
    requires 0 <= i < |effects| && effects[i].Assign?
    requires forall j :: i < j < |effects| ==> !Sets(effects[j], effects[i].key)
    ensures effects[i].key in ApplyAll(env, effects).value
    ensures ApplyAll(env, effects).value[effects[i].key] == effects[i].value
    decreases |effects|
  {
    var n := |effects| - 1;
    if i < n {
      ApplyAllLastWins(env, effects[..n], i);
    }
  }

  /** A later line for the same key overwrites an earlier one: after a
      successful load, a variable set by line `i` and by no later line has
      the value line `i` gives it. */
  lemma LoadEnvLastWins(env: map<string, string>, lines: seq<string>, i: int, k: string)
    requires 0 <= i < |lines|
    requires forall j :: i < j < |lines| ==> !Sets(ParseLine(lines[j]), k)
    ensures LoadEnv(env, lines).Success? && Sets(ParseLine(lines[i]), k) ==>
              && k in LoadEnv(env, lines).value
              && LoadEnv(env, lines).value[k] == ParseLine(lines[i]).value
  {
    if LoadEnv(env, lines).Success? && Sets(ParseLine(lines[i]), k) {
      ApplyAllLastWins(env, ParseLines(lines), i);
    }
  }

  /** A variable no line of the file sets keeps its value from the process
      environment after a successful load, and stays absent if it was absent. */
  lemma LoadEnvKeepsUnset(env: map<string, string>, lines: seq<string>, k: string)
    ensures LoadEnv(env, lines).Success? && (forall j :: 0 <= j < |lines| ==> !Sets(ParseLine(lines[j]), k)) ==>
              && (k in LoadEnv(env, lines).value <==> k in env)
              && (k in env ==> LoadEnv(env, lines).value[k] == env[k])
  {
    if LoadEnv(env, lines).Success? && (forall j :: 0 <= j < |lines| ==> !Sets(ParseLine(lines[j]), k)) {
      ApplyAllKeepsUnset(env, ParseLines(lines), k);
    }
  }

  /** The value `" a b "` loses its quotes and keeps the spaces inside them. */
  lemma QuotedValueExample()
    ensures StripQuotes("\" a b \"") == " a b "
  {
    assert StrippedAt(" a b ", "\" a b \"", IsQuote, 1);
    StripUnique(" a b ", "\" a b \"", IsQuote);
  }

  /** The quotes need not match to be removed: `"abc'` gives `abc`. */
  lemma UnmatchedQuotesExample()
    ensures StripQuotes("\"abc'") == "abc"
  {
    assert StrippedAt("abc", "\"abc'", IsQuote, 1);
    StripUnique("abc", "\"abc'", IsQuote);
  }
}

=== FILE: string_order.dfy ===
/** Python's ordering of `str` values and `sorted(set(...))` over strings. */
module StringOrder {
  import opened Common

  /** Python's `a < b` on `str`: code points are compared from the left, and a
      proper prefix is smaller than the longer string. */
  predicate Less(a: string, b: string) {
    if a == [] then b != []
    else b != [] && (if a[0] == b[0] then Less(a[1..], b[1..]) else a[0] < b[0])
  }

  /** `a` and `b` agree on their first `k` characters and differ in favour
      of `b` at position `k` (or `a` ends there and `b` does not). */
  ghost predicate FirstDifferenceAt(a: string, b: string, k: nat) {
    && k <= |a| && k <= |b|
    && a[..k] == b[..k]
    && ((k == |a| && k < |b|) || (k < |a| && k < |b| && a[k] < b[k]))
  }

  /** `Less` is the lexicographic order: it holds exactly when there is a
      first difference that favours `b`. */
  lemma {:induction false} LessIffFirstDifference(a: string, b: string)
    ensures Less(a, b) <==> exists k :: FirstDifferenceAt(a, b, k)
  {
    if a == [] || b == [] || a[0] != b[0] {
      if Less(a, b) {
        assert FirstDifferenceAt(a, b, 0);
      }
    } else {
      LessIffFirstDifference(a[1..], b[1..]);
      if Less(a, b) {
        var k: nat :| FirstDifferenceAt(a[1..], b[1..], k);
        assert a[..k + 1] == [a[0]] + a[1..][..k];
        assert b[..k + 1] == [b[0]] + b[1..][..k];
        assert FirstDifferenceAt(a, b, k + 1);
      }
      if exists k :: FirstDifferenceAt(a, b, k) {
        var k: nat :| FirstDifferenceAt(a, b, k);
        assert k != 0;
        assert a[1..][..k - 1] == a[..k][1..];
        assert b[1..][..k - 1] == b[..k][1..];
        assert FirstDifferenceAt(a[1..], b[1..], k - 1);
      }
    }
  }

  lemma {:induction false} LessIrreflexive(a: string)
    ensures !Less(a, a)
  {
    if a != [] {
      LessIrreflexive(a[1..]);
    }
  }

  lemma {:induction false} LessTransitive(a: string, b: string, c: string)
    requires Less(a, b) && Less(b, c)
    ensures Less(a, c)
  {
    if a != [] && a[0] == b[0] && b[0] == c[0] {
      LessTransitive(a[1..], b[1..], c[1..]);
    }
  }

  /** Any two distinct strings are ordered one way or the other. */
  lemma {:induction false} LessTotal(a: string, b: string)
    ensures a == b || Less(a, b) || Less(b, a)
  {
    if a != [] && b != [] && a[0] == b[0] {
      LessTotal(a[1..], b[1..]);
      if a[1..] == b[1..] {
        assert a == [a[0]] + a[1..] && b == [b[0]] + b[1..];
      }
    }
  }

  /** No two strings are each smaller than the other. */
  lemma LessAsymmetric(a: string, b: string)
    ensures Less(a, b) ==> !Less(b, a)
  {
    if Less(a, b) && Less(b, a) {
      LessTransitive(a, b, a);
      LessIrreflexive(a);
    }
  }

  /** Every element is smaller than every later element. */
  predicate StrictlySorted(s: seq<string>) {
    forall i, j :: 0 <= i < j < |s| ==> Less(s[i], s[j])
  }

  /** A strictly sorted sequence holds each of its elements once. */
  lemma StrictlySortedDistinct(s: seq<string>, i: int, j: int)
    requires StrictlySorted(s)
    requires 0 <= i < |s| && 0 <= j < |s| && i != j
    ensures s[i] != s[j]
  {
    if i < j {
      LessIrreflexive(s[i]);
    } else {
      LessIrreflexive(s[j]);
    }
  }

  /** Inserts `x` into its place in a strictly sorted sequence, unless it is
      already there. */
  function Insert(x: string, s: seq<string>): (r: seq<string>)
    requires StrictlySorted(s)
    ensures StrictlySorted(r)
    ensures Elems(r) == Elems(s) + {x}
  {
    if s == [] then [x]
    else if x == s[0] then
      assert Elems(s) == Elems(s[1..]) + {s[0]} by { assert s == [s[0]] + s[1..]; }
      s
    else if Less(x, s[0]) then
      assert forall j :: 0 <= j < |s| ==> Less(x, s[j]) by {
        forall j | 0 < j < |s| { LessTransitive(x, s[0], s[j]); }
      }
      [x] + s
    else
      LessTotal(x, s[0]);
      var t := Insert(x, s[1..]);
      assert Elems(s) == Elems(s[1..]) + {s[0]} by { assert s == [s[0]] + s[1..]; }
      assert forall j :: 0 <= j < |t| ==> Less(s[0], t[j]) by {
        forall j | 0 <= j < |t| ensures Less(s[0], t[j]) {
          assert t[j] in Elems(t);
          if t[j] != x {
            assert t[j] in Elems(s[1..]);
            var m :| 0 <= m < |s| - 1 && s[1..][m] == t[j];
            assert s[m + 1] == t[j];
          }
        }
      }
      assert Elems([s[0]] + t) == {s[0]} + Elems(t);
      [s[0]] + t
  }

  /** Python's `sorted(set(xs))` on strings: the distinct elements of `xs`
      in ascending order. */
  function SortedSet(xs: seq<string>): (r: seq<string>)
    ensures StrictlySorted(r)
    ensures Elems(r) == Elems(xs)
  {
    if xs == [] then []
    else
      var n := |xs| - 1;
      assert Elems(xs) == Elems(xs[..n]) + {xs[n]} by { assert xs == xs[..n] + [xs[n]]; }
      Insert(xs[n], SortedSet(xs[..n]))
  }

  /** A set of strings has exactly one strictly ascending listing, so the
      result of `SortedSet` depends only on the set of its input's elements. */
  lemma {:induction false} SortedUnique(a: seq<string>, b: seq<string>)
    requires StrictlySorted(a) && StrictlySorted(b)
    requires Elems(a) == Elems(b)
    ensures a == b
  {
    if a != [] {
      assert a[0] in Elems(a);
    }
    if b != [] {
      assert b[0] in Elems(b);
    }
    if a != [] && b != [] {
      if a[0] != b[0] {
        // each head is smaller than the other one
        var i :| 0 <= i < |a| && a[i] == b[0];
        var j :| 0 <= j < |b| && b[j] == a[0];
        assert Less(b[0], a[0]);
        assert Less(a[0], b[0]);
        LessAsymmetric(a[0], b[0]);
        assert false;
      }
      assert Elems(a) == Elems(a[1..]) + {a[0]} by { assert a == [a[0]] + a[1..]; }
      assert Elems(b) == Elems(b[1..]) + {b[0]} by { assert b == [b[0]] + b[1..]; }
      assert a[0] !in Elems(a[1..]) by {
        forall j | 1 <= j < |a| ensures a[j] != a[0] { StrictlySortedDistinct(a, 0, j); }
      }
      assert b[0] !in Elems(b[1..]) by {
        forall j | 1 <= j < |b| ensures b[j] != b[0] { StrictlySortedDistinct(b, 0, j); }
      }
      SortedUnique(a[1..], b[1..]);
      assert a == [a[0]] + a[1..] && b == [b[0]] + b[1..];
    }
  }

  /** Python's `sorted(set(xs))` gives the same list for any two inputs with
      the same elements, whatever their order or repetitions. */
  lemma SortedSetDeterministic(xs: seq<string>, ys: seq<string>)
    requires Elems(xs) == Elems(ys)
    ensures SortedSet(xs) == SortedSet(ys)
  {
    SortedUnique(SortedSet(xs), SortedSet(ys));
  }
}

=== FILE: text.dfy ===
/** The pieces of Python's `str` API that the env-file parser relies on:
    `isspace`, `strip()` / `strip(chars)` and `partition(sep)`. */
module Text {

  /** Python's `str.isspace`: the characters `str.strip()` removes when it is
      called without arguments (ASCII controls 9-13 and 28-31, the space,
      and the Unicode separators). */
  predicate IsSpace(c: char) {
    || ('\t' <= c <= '\r')
    || ('\U{1C}' <= c <= ' ')
    || c == '\U{85}' || c == '\U{A0}' || c == '\U{1680}'
    || ('\U{2000}' <= c <= '\U{200A}')
    || c == '\U{2028}' || c == '\U{2029}' || c == '\U{202F}'
    || c == '\U{205F}' || c == '\U{3000}'
  }

  /** The characters of the argument `"'\""` given to `strip`. */
  predicate IsQuote(c: char) {
    c == '\'' || c == '"'
  }

  /** The length of the longest prefix of `s` made of `drop` characters. */
  function LeadingRun(s: string, drop: char -> bool): (n: nat)
    ensures n <= |s|
    ensures forall k :: 0 <= k < n ==> drop(s[k])
    ensures n < |s| ==> !drop(s[n])
  {
    if s != [] && drop(s[0]) then 1 + LeadingRun(s[1..], drop) else 0
  }

  /** Where the longest suffix of `s` made of `drop` characters begins. */
  function TrailingRun(s: string, drop: char -> bool): (n: nat)
    ensures n <= |s|
    ensures forall k :: n <= k < |s| ==> drop(s[k])
    ensures 0 < n ==> !drop(s[n - 1])
  {
    if s != [] && drop(s[|s| - 1]) then TrailingRun(s[..|s| - 1], drop) else |s|
  }

  /** `r` is what is left of `s` after removing a run of `drop` characters
      from each end, and neither end of `r` can be removed any further. */
  ghost predicate IsStripOf(r: string, s: string, drop: char -> bool) {
    && (r != [] ==> !drop(r[0]) && !drop(r[|r| - 1]))
    && exists i :: StrippedAt(r, s, drop, i)
  }

  /** `r` sits in `s` at offset `i`, with only `drop` characters around it. */
  ghost predicate StrippedAt(r: string, s: string, drop: char -> bool, i: int) {
    && 0 <= i && i + |r| <= |s|
    && r == s[i..i + |r|]
    && (forall k :: 0 <= k < i ==> drop(s[k]))
    && (forall k :: i + |r| <= k < |s| ==> drop(s[k]))
  }

  /** Python's `s.strip(chars)`, with `drop` telling which characters are in `chars`. */
  function Strip(s: string, drop: char -> bool): (r: string)
    ensures IsStripOf(r, s, drop)
  {
    var i := LeadingRun(s, drop);
    if i == |s| then
      assert StrippedAt([], s, drop, 0);
      []
    else
      var j := TrailingRun(s, drop);
      assert StrippedAt(s[i..j], s, drop, i);
      s[i..j]
  }

  /** Python's `s.strip()`. */
  function StripSpace(s: string): string {
    Strip(s, IsSpace)
  }

  /** Python's `s.strip("'\"")`. */
  function StripQuotes(s: string): string {
    Strip(s, IsQuote)
  }

  /** The strip characterisation is exact: `Strip` is the only string that
      satisfies it. */
  lemma StripUnique(r: string, s: string, drop: char -> bool)
    requires IsStripOf(r, s, drop)
    ensures r == Strip(s, drop)
  {
    var r' := Strip(s, drop);
    var i :| StrippedAt(r, s, drop, i);
    var i' :| StrippedAt(r', s, drop, i');
    if r == [] || r' == [] {
      // one side consists of drop characters only, so both are empty
    } else {
      assert s[i] == r[0] && s[i'] == r'[0];
      assert i == i';
      var j, j' := i + |r| - 1, i' + |r'| - 1;
      assert s[j] == r[|r| - 1] && s[j'] == r'[|r'| - 1];
      assert j == j';
    }
  }

  /** Stripping twice is the same as stripping once. */
  lemma StripIdempotent(s: string, drop: char -> bool)
    ensures Strip(Strip(s, drop), drop) == Strip(s, drop)
  {
    var r := Strip(s, drop);
    assert StrippedAt(r, r, drop, 0);
    StripUnique(r, r, drop);
  }

  /** `strip` returns the empty string exactly when every character is removable. */
  lemma StripEmptyIff(s: string, drop: char -> bool)
    ensures Strip(s, drop) == [] <==> forall k :: 0 <= k < |s| ==> drop(s[k])
  {
    if forall k :: 0 <= k < |s| ==> drop(s[k]) {
      assert StrippedAt([], s, drop, 0);
      StripUnique([], s, drop);
    }
  }

  /** The result of Python's `s.partition(sep)`: the part before the first
      `sep`, whether `sep` occurs, and the part after it. */
  datatype Parts = Parts(head: string, found: bool, tail: string)

  /** Python's `s.partition(sep)` for a one-character separator. */
  function Partition(s: string, sep: char): (p: Parts)
    ensures p.found <==> sep in s
    ensures sep !in p.head
    ensures p.found ==> s == p.head + [sep] + p.tail
    ensures !p.found ==> p.head == s && p.tail == []
  {
    if s == [] then Parts([], false, [])
    else if s[0] == sep then Parts([], true, s[1..])
    else
      var p := Partition(s[1..], sep);
      assert s == [s[0]] + s[1..];
      Parts([s[0]] + p.head, p.found, p.tail)
  }

  /** Splitting at the first occurrence of `sep`. */
  lemma PartitionAtFirst(s: string, sep: char, p: int)
    requires 0 <= p < |s| && s[p] == sep && sep !in s[..p]
    ensures Partition(s, sep) == Parts(s[..p], true, s[p + 1..])
  {
    assert s[p] in s;
    var q := Partition(s, sep);
    var h := |q.head|;
    assert s[h] == sep;
    assert h <= p by {
      assert forall i :: 0 <= i < p ==> s[..p][i] == s[i];
    }
    assert h >= p by {
      assert forall i :: 0 <= i < h ==> q.head[i] == s[i];
    }
    assert q.head == s[..p];
    assert q.tail == s[p + 1..];
  }

  /** Stripping only removes characters. */
  lemma StripKeepsOut(s: string, drop: char -> bool, c: char)
    requires c !in s
    ensures c !in Strip(s, drop)
  {
    var r := Strip(s, drop);
    var i :| StrippedAt(r, s, drop, i);
  }
}
